=== FILE: README.md ===
# Chat_Cat matchmaking and lifecycle model

A Dafny model of the Socket.IO server in `app.py`: the handlers that pair anonymous users
into two-person chat rooms, relay chat events inside a room, and unwind a pairing on skip
or disconnect. SQL and socket calls are removed; what remains is a state machine over
three pieces of state:

- the `users` table (`Directory`): one row per user with nickname, age, gender, mobile,
  `active` and `current_partner`; a user's id is its row number, so a fresh id is the
  table length (rows are never deleted);
- `connected_users` and `user_sockets` (`Sessions.Registry`): session id to user id and back;
- Socket.IO rooms (`Rooms`): room key `room_{first}_{second}` to a set of sessions.
  app.py never calls `leave_room`, so in the model membership only grows.

`login`, `skip_partner` and `disconnect` are each one atomic, pure transition returning the
new state and the events emitted, in order (`Server.Step`). The three relay handlers leave
the state alone and return a set of events: one for each room member except the sender.

Proved about the model:

- the four state invariants (`Invariants.Inv`): partner symmetry, no self-pairing, a
  partnered user and its partner are both active, and a user is active exactly when it
  has a session, with the two session dictionaries inverse to each other;
- skip, disconnect and the relays preserve them in every state;
- login as written is proved to preserve them on a session that has not logged in yet. A
  login on a logged-in session whose mobile is already active is refused and keeps the
  state. A second login on a logged-in session with a mobile that is not active breaks
  them (see Findings);
- the guarded login (`Server.GuardedLogin`) preserves them on every session;
- every run from a clean start preserves them (`Trace.ReachableInv`). A clean start has no
  sessions, no rooms, and nobody active or paired; the empty table is one. Login as written
  preserves them on every run where each session logs in at most once
  (`Trace.ReachableInvAsWritten`);
- the behaviour of each handler in each branch, including the duplicate-login rejection,
  pairing and waiting, and the unwinding done by skip and disconnect;
- disconnect is idempotent;
- relay events never return to their sender;
- the concrete scenarios: three arrivals, skip then rejoin, and disconnect while paired.

The model follows the code:

- the room key is an ordered pair, with the requester first;
- the departure event is `partner_disconnected`, carrying one of two fixed messages;
- a duplicate login is detected by mobile number among active users;
- relay goes to every session in the room except the sender's. app.py never leaves a room,
  so after a skip the old partner can still be reached (`Scenarios.StaleRoomStillRelays`).

A second `login` on a session that is already logged in, with a mobile that no active
user holds, is not rejected by the code. It overwrites `connected_users[sid]` and leaves
the first user active with a `user_sockets` entry. The two dictionaries then stop being
inverse. After that
session disconnects, the first user stays active forever and every later login with its
mobile is refused (`Scenarios.SecondLoginOnSessionBreaksInverse`). The invariant lemmas about
login as written therefore assume a session that has not logged in. `Server.GuardedLogin`
refuses such a login instead, and `Trace.Run` uses it (see Findings).

## Model

| member | source | states |
|---|---|---|
| Directory.FirstFrom | app.py:80-85 | the scan behind `LIMIT 1`: the result satisfies the filter and every earlier row fails it; no result means no row from `from` on satisfies it |
| Directory.FindByMobile | app.py:61-62 | returns the first row with the given mobile, and returns nothing exactly when no row has that mobile |
| Directory.FindCandidate | app.py:80-85 | the chosen candidate is never the requester, is active and has no partner, and nothing is chosen exactly when no user is eligible |
| Directory.SetActive | app.py:65 | the update changes only the `active` column of the named row; a missing row changes nothing |
| Directory.SetPartner | app.py:91-92 | the update changes only the `current_partner` column of the named row; a missing row changes nothing |
| Directory.Insert | app.py:67-71 | the new row is active and partner-less under the fresh id, and earlier rows are kept |
| Sessions.Register | app.py:76-77 | the session then resolves to the user and the user to the session; every other entry keeps its value |
| Sessions.Unregister | app.py:208-209 | both entries are removed whatever the other dictionary says; every other entry keeps its value |
| Sessions.RegisterKeepsInverse | app.py:76-77 | registering a new session for a user with no session keeps the two dictionaries inverse |
| Sessions.UnregisterKeepsInverse | app.py:208-209 | removing a session together with the user it resolves to keeps the two dictionaries inverse |
| Rooms.Join | app.py:97-98 | `join_room` adds the session to that room only |
| Rooms.Recipients | app.py:139 | an emit with `skip_sid` reaches exactly the room's members other than the sender |
| Server.LoginId | app.py:61-71 | login continues with the first user that holds the mobile; if no user holds it, login continues with the fresh id |
| Server.Activate | app.py:61-73 | the user that logs in ends up active with its mobile. A returning user's row changes only in `active`; a new user is appended with the submitted profile |
| Server.Admit | app.py:61-77 | the accepted user is active with its mobile and registered both ways; every other row, every other session and every room is unchanged |
| Server.Pair | app.py:87-119 | the two partner fields point at each other and both sessions join room (requester, candidate). Each side gets `chat_started` with the other's nickname. Nothing is emitted exactly when the candidate has no session (the `KeyError` at line 98) |
| Server.Login | app.py:41-125 | a mobile that is already active gets only `login_error`, and nothing else changes. Otherwise the user is active and registered both ways, the mobile is then held by an active user, and the registry gains only that session. The requester's row is its stored row made active (or a new row from the request), with at most its partner changed. The table grows only by a new user's row, and at most one other row changes: that of an eligible candidate, whose partner becomes the requester. Rooms only grow |
| Server.GuardedLogin | app.py:41-125 | the intended login sends `login_error` alone exactly when the session is already logged in or the mobile is already active, and then changes nothing. Otherwise the user is active and registered both ways, with the same row and registry frame as the login of app.py. Rooms only grow |
| Server.Release | app.py:167-175 | clears the partner's partner and emits at most one `partner_disconnected`, only to a partner with a session; a partner with a session is always told |
| Server.Skip | app.py:156-179 | an unknown session changes nothing. Otherwise the requester loses its partner; no `active` flag, registry entry or room changes |
| Server.Disconnect | app.py:182-209 | an unknown session changes nothing. Otherwise the user is inactive and partner-less and is removed from both dictionaries; the session no longer resolves |
| Server.Relay | app.py:128-152 | an event goes to a session exactly when that session is in the room and is not the sender, and its payload is unchanged |
| Server.HandleMessage | app.py:128-139 | a `receiveMessage` event goes to a session exactly when that session is in the room and is not the sender; text, reply and timestamp are unchanged |
| Server.HandleSeen | app.py:142-146 | a `message_status_update` event with status "seen" goes to a session exactly when that session is in the room and is not the sender |
| Server.HandleTyping | app.py:149-152 | a `typing` event goes to a session exactly when that session is in the room and is not the sender |
| Invariants.CleanStartInv | app.py:30-31 | a state with empty dictionaries, no rooms and nobody active or paired satisfies the invariant |
| Invariants.InitInv | app.py:30-31 | the empty start state is a clean start and satisfies the invariant |
| Invariants.CandidateHasSession | app.py:98-118 | under the invariant, the candidate the login query picks always has a session, so the lookups at lines 98 and 118 succeed and the login emits |
| Invariants.NobodyPointsAtUnpaired | app.py:80-82 | under symmetry no user names a partner-less user as its partner |
| Invariants.ReleaseUnpaired | app.py:198 | rewriting the row of an unpaired user with no partner, inactive or not, keeps the partner column consistent |
| Invariants.ReleasePair | app.py:171-173 | clearing both sides of a pair keeps symmetry, irreflexivity and "partnered implies active" |
| Invariants.PairKeeps | app.py:91-92 | pairing two distinct active, partner-less users keeps the partner column consistent |
| Invariants.AdmitPreservesInv | app.py:61-77 | activating or creating the user and registering a new session keeps the invariant |
| Invariants.PairPreservesInv | app.py:87-98 | claiming an eligible candidate keeps the invariant |
| Invariants.LoginPreservesInv | app.py:41-125 | login on a session that is not logged in keeps the invariant |
| Invariants.SkipPreservesInv | app.py:156-179 | skip keeps the invariant |
| Invariants.DisconnectPreservesInv | app.py:182-209 | disconnect keeps the invariant |
| Invariants.GuardedLoginPreservesInv | app.py:41-125 | the guarded login keeps the invariant on every session |
| Properties.LoginPairs | app.py:87-119 | with an eligible candidate, the requester is paired with one, and both point at each other. The requester's row is its admitted row with the partner set, and the candidate's row changes only in its partner. Each side gets `chat_started` with the same room key and the other's stored nickname, and both sessions are in the room. No other row changes, and the registry gains only the requester's session |
| Properties.LoginWaits | app.py:61-122 | with no eligible candidate, the requester's row is its stored row made active (or a new active, partner-less row from the request), and it is registered both ways, and receives only `waiting`. No other row or room changes, and the registry gains only the requester's session |
| Properties.SkipUnpairs | app.py:158-177 | skip clears both partner fields and changes nothing else in either row, nor any other row. The partner is told "Your partner skipped you."; an unpaired requester changes nothing |
| Properties.DisconnectUnpairs | app.py:184-209 | the user's row becomes inactive and partner-less and changes in nothing else. The partner loses its partner but keeps `active` and is told "Your partner disconnected.". Both registry entries go |
| Properties.DisconnectIdempotent | app.py:184-187 | a second disconnect on the same session changes nothing and emits nothing |
| Properties.PairRoomRelays | app.py:95-98 | once both sessions have joined the pairing's room, relay events pass between them and never reach the sender |
| Properties.PairedSessionsReachEachOther | app.py:128-152 | right after a login pairs two users, relay events pass between the two distinct sessions and never back to the sender |
| Trace.ApplyPreservesInv | app.py:41-209 | every handler, with the guarded login, keeps the invariant |
| Trace.RunPreservesInv | app.py:41-209 | every run with the guarded login keeps the invariant |
| Trace.ReachableInv | app.py:30-31 | every state reached from a clean start with the guarded login satisfies the invariant |
| Trace.RunsAgree | app.py:76-77 | when each session logs in at most once, the code as written and the guarded login give the same run |
| Trace.ReachableInvAsWritten | app.py:41-209 | the code as written keeps the invariant on every run from a clean start in which each session logs in at most once |
| Trace.RunRoomsGrow | app.py:97-98 | no room loses a member along any run |
| Scenarios.AliceWaits | app.py:121-122 | the first arrival waits and is registered on its session |
| Scenarios.BobPairsWithAlice | app.py:87-119 | the second arrival is paired with the waiting first one in room (second, first), and each learns the other's nickname |
| Scenarios.CarolWaits | app.py:80-85 | a third arrival finds no eligible candidate, because the other two are paired, and waits |
| Scenarios.AliceMessageReachesOnlyBob | app.py:128-139 | a message in the pair's room reaches the partner only, and not the waiting third user |
| Scenarios.ThreeArrivals | app.py:41-139 | the three-arrival scenario from start to finish |
| Scenarios.AliceSkipsBob | app.py:156-179 | after a skip both users are unpaired and still active, and the skipped user is told |
| Scenarios.StaleRoomStillRelays | app.py:97-98 | rooms are never left, so after a skip the old room still relays to the former partner |
| Scenarios.CarolPairsAfterSkip | app.py:80-119 | after a skip, a newcomer is paired with a freed user |
| Scenarios.AliceDisconnects | app.py:182-209 | a paired user disconnects: the partner is told and keeps `active`, and the session is gone |
| Scenarios.SecondLoginOverwrites | app.py:76-77 | a second login on session "a" with another mobile points "a" at the new user, while the first user keeps its socket entry "a" |
| Scenarios.DisconnectOrphansFirstUser | app.py:208-209 | the disconnect that follows removes only the new user's entries, so the first user stays active with a socket entry that no session resolves to |
| Scenarios.SecondLoginOnSessionBreaksInverse | app.py:76-77 | a second login with another mobile on a logged-in session breaks the registry inverse. After disconnect, the first user stays active with no session and its mobile is refused. The guarded login refuses the second login and keeps the state |

## Left out

- HTTP routes `home` and `test_session`, template rendering, cookie and secret-key configuration: UI and HTTP plumbing.
- Database connections, cursors, SQL text, commit and close: the table is an abstract sequence of rows.
- `LIMIT 1` and `fetchone` without `ORDER BY`: the database may return any matching row. The model scans in ascending id, which is one admissible order.
- Ids from the `INSERT`: the model gives the fresh id equal to the table length. This is one id not yet in the table.
- Concurrent interleavings of handlers: each handler is one atomic step. The read-then-claim race in login is a defect of the code and is not modelled. Because of atomicity, a later arrival can never claim a candidate that was already paired: an eligible candidate has no partner (`Directory.FindCandidate`, first ensures).
- Socket.IO transport, `join_room` internals and delivery: events are returned values, and rooms are sets of session ids.
- Payload contents: `text`, `replyText` and `timestamp` are optional strings passed through unchanged. The constant empty `reactions` field is omitted.
- Malformed inbound events: a login payload with missing keys raises in the code and is not modelled. A missing `room` in a relay event is not modelled either, and neither is a room name that does not parse as a pair of ids.
- Python truthiness: `if not user_id` and `if partner_id` are modelled as absence tests on `Option`. A user or partner with id 0 is therefore not treated as absent.
- Database failures: the code has no error path for an unreachable database, so none is modelled.
- Socket.IO's own clean-up: the transport removes a disconnected session from every room. The model has only app.py's `join_room` calls, so rooms only grow.
- Process restarts: the model starts from a clean start. A restart empties the two dictionaries but keeps the table, including `active` flags that are still set. Those users would be refused at login, and that case is not covered.
- Invariants.LoginPreservesInv: assumes the session has not logged in yet, because a second login on the same session breaks the invariant in the code (`Scenarios.SecondLoginOnSessionBreaksInverse`).
- Invariants.AdmitPreservesInv: assumes the session has not logged in yet, for the same reason.
- Trace.ReachableInvAsWritten: assumes one login per session, for the same reason; `Trace.ReachableInv` covers every run with the guarded login.

## Findings

| source | as written | input that shows it | evidently intended | confidence | as-written member | corrected member |
|---|---|---|---|---|---|---|
| app.py:52-77 | a login on a session that is already logged in, with a mobile that is not active, is accepted. It overwrites `connected_users[sid]`, and the first user keeps its `user_sockets` entry and stays active | session "a" logs in with mobile 111, then logs in again with mobile 222; then "a" disconnects | one user per session, as the two dictionaries assume; the second login is refused with `login_error` | not executed; high, since the dictionary stores at lines 76-77 are unconditional | Scenarios.SecondLoginOnSessionBreaksInverse | Invariants.GuardedLoginPreservesInv |

=== FILE: directory.dfy ===
/**
 The `users` table of app.py, reduced to the columns the socket handlers read
 and write. Row `i` holds the user whose id is `i`: ids are handed out in
 insertion order and no handler ever deletes a row, so the next fresh id is
 always the length of the table.
 */
module Directory {
  import opened Wrappers

  type UserId = nat

  /** One row of `users`. `partner` is the `current_partner` column. */
  datatype User = User(
    nickname: string,
    age: string,
    gender: string,
    mobile: string,
    active: bool,
    partner: Option<UserId>)

  type Users = seq<User>

  /** The first row at or after `from`, by ascending id, that satisfies `p`.
      A `SELECT ... LIMIT 1` without `ORDER BY` may return any matching row;
      the model fixes the scan order to ascending id. */
  function FirstFrom(users: Users, p: (UserId, User) -> bool, from: nat): (r: Option<UserId>)
    ensures r.Some? ==> from <= r.value < |users| && p(r.value, users[r.value])
    ensures r.Some? ==> forall j :: from <= j < r.value ==> !p(j, users[j])
    ensures r.None? ==> forall j :: from <= j < |users| ==> !p(j, users[j])
    decreases |users| - from
  {
    if from >= |users| then None
    else if p(from, users[from]) then Some(from)
    else FirstFrom(users, p, from + 1)
  }

  /** Whether some active user registered the given mobile (app.py:52-53). */
  predicate HasActiveWithMobile(users: Users, mobile: string)
  {
    exists i :: 0 <= i < |users| && users[i].mobile == mobile && users[i].active
  }

  /** The user that registered the given mobile, if any (app.py:61-62). */
  function FindByMobile(users: Users, mobile: string): (r: Option<UserId>)
    ensures r.Some? ==> r.value < |users| && users[r.value].mobile == mobile
    ensures r.Some? ==> forall j :: 0 <= j < r.value ==> users[j].mobile != mobile
    ensures r.None? <==> forall j :: 0 <= j < |users| ==> users[j].mobile != mobile
  {
    FirstFrom(users, (id: UserId, u: User) => u.mobile == mobile, 0)
  }

  /** A user the requester may be matched with: active, partner-less and
      not the requester (the WHERE clause of app.py:80-84). */
  predicate Eligible(users: Users, requester: UserId, id: UserId)
  {
    id < |users| && id != requester && users[id].active && users[id].partner.None?
  }

  /** The candidate the matchmaking query returns (app.py:80-85). */
  function FindCandidate(users: Users, requester: UserId): (r: Option<UserId>)
    ensures r.Some? ==> Eligible(users, requester, r.value)
    ensures r.Some? ==> forall j :: 0 <= j < r.value ==> !Eligible(users, requester, j)
    ensures r.None? <==> forall j :: 0 <= j < |users| ==> !Eligible(users, requester, j)
  {
    FirstFrom(users, (id: UserId, u: User) => Eligible(users, requester, id), 0)
  }

  /** `row['current_partner'] if row else None` (app.py:167-169, 193-195). */
  function PartnerOf(users: Users, id: UserId): Option<UserId>
  {
    if id < |users| then users[id].partner else None
  }

  /** `UPDATE users SET active = b WHERE id = id`: a missing row is left alone. */
  function SetActive(users: Users, id: UserId, b: bool): (r: Users)
    ensures |r| == |users|
    ensures forall j :: 0 <= j < |r| && j != id ==> r[j] == users[j]
    ensures id < |users| ==> r[id] == users[id].(active := b)
  {
    if id < |users| then users[id := users[id].(active := b)] else users
  }

  /** `UPDATE users SET current_partner = p WHERE id = id`. */
  function SetPartner(users: Users, id: UserId, p: Option<UserId>): (r: Users)
    ensures |r| == |users|
    ensures forall j :: 0 <= j < |r| && j != id ==> r[j] == users[j]
    ensures id < |users| ==> r[id] == users[id].(partner := p)
  {
    if id < |users| then users[id := users[id].(partner := p)] else users
  }

  /** The `INSERT ... RETURNING id` of app.py:67-71: a new active,
      partner-less row under the fresh id `|users|`. */
  function Insert(users: Users, nickname: string, age: string, gender: string, mobile: string): (r: Users)
    ensures |r| == |users| + 1
    ensures r[..|users|] == users
    ensures r[|users|] == User(nickname, age, gender, mobile, true, None)
  {
    users + [User(nickname, age, gender, mobile, true, None)]
  }
}

=== FILE: events.dfy ===
/** The outbound Socket.IO events the handlers emit, each addressed to one session. */
module Events {
  import opened Wrappers
  import opened Sessions
  import opened Rooms

  /** A client-supplied payload field, read with `data.get` and so possibly absent. */
  type Field = Option<string>

  datatype Kind =
    | LoginError(message: string)                     // "login_error"
    | Waiting(message: string)                        // "waiting"
    | ChatStarted(room: RoomKey, partnerName: string) // "chat_started"
    | PartnerDisconnected(message: string)            // "partner_disconnected"
    | ReceiveMessage(text: Field, replyText: Field, timestamp: Field) // "receiveMessage"
    | MessageStatusUpdate(text: Field, status: string) // "message_status_update"
    | Typing                                          // "typing"

  datatype Event = Event(target: Sid, kind: Kind)

  const AlreadyConnectedMessage := "You are already connected from another device."
  const WaitingMessage := "Waiting for another user..."
  const SkippedMessage := "Your partner skipped you."
  const DisconnectedMessage := "Your partner disconnected."
  const SeenStatus := "seen"
}

=== FILE: invariants.dfy ===
/**
 The consistency conditions the handlers keep between the `users` table and
 the session registry, and the lemmas that each handler preserves them.
 */
module Invariants {
  import opened Wrappers
  import opened Directory
  import opened Sessions
  import opened Server

  /** Every id the state mentions names a row. */
  predicate IdsInRange(s: State)
  {
    && (forall a :: 0 <= a < |s.users| && s.users[a].partner.Some? ==> s.users[a].partner.value < |s.users|)
    && (forall sid :: sid in s.reg.connected ==> s.reg.connected[sid] < |s.users|)
    && (forall uid :: uid in s.reg.sockets ==> uid < |s.users|)
  }

  /** partner(A) = B implies partner(B) = A. */
  predicate Symmetric(users: Users)
  {
    forall a :: 0 <= a < |users| && users[a].partner.Some? ==>
      var b := users[a].partner.value;
      b < |users| && users[b].partner == Some(a)
  }

  /** No user is its own partner. */
  predicate Irreflexive(users: Users)
  {
    forall a :: 0 <= a < |users| ==> users[a].partner != Some(a)
  }

  /** partner(A) = B implies both A and B are active. */
  predicate PairedAreActive(users: Users)
  {
    forall a :: 0 <= a < |users| && users[a].partner.Some? ==>
      var b := users[a].partner.value;
      users[a].active && (b < |users| ==> users[b].active)
  }

  /** A user is active exactly when `user_sockets` holds a session for it. */
  predicate ActiveIffRegistered(s: State)
  {
    forall a :: 0 <= a < |s.users| ==> (s.users[a].active <==> a in s.reg.sockets)
  }

  predicate Inv(s: State)
  {
    && IdsInRange(s)
    && Symmetric(s.users)
    && Irreflexive(s.users)
    && PairedAreActive(s.users)
    && ActiveIffRegistered(s)
    && Inverse(s.reg)
  }

  /** A start state: no session and no room, and a table in which nobody
      is active or paired. The empty table is one. */
  predicate CleanStart(s: State)
  {
    && s.reg == Sessions.Empty && s.rooms == map[]
    && forall a :: 0 <= a < |s.users| ==> !s.users[a].active && s.users[a].partner.None?
  }

  /** Every clean start state satisfies the invariant. */
  lemma CleanStartInv(s: State)
    requires CleanStart(s)
    ensures Inv(s)
  {
  }

  /** The empty start state is a clean one. */
  lemma InitInv()
    ensures CleanStart(Init) && Inv(Init)
  {
  }

  /** In a state satisfying the invariant, the candidate the login query
      picks always has a session, so `user_sockets[partner_id]` at
      app.py:98 and app.py:118 cannot fail and the login always emits. */
  lemma CandidateHasSession(s: State, sid: Sid, req: LoginRequest)
    requires Inv(s)
    requires !HasActiveWithMobile(s.users, req.mobile)
    ensures var c := FindCandidate(Admit(s, sid, req).users, LoginId(s.users, req));
      c.Some? ==> c.value in s.reg.sockets && c.value in Admit(s, sid, req).reg.sockets
    ensures Login(s, sid, req).out != []
  {
    var s' := Admit(s, sid, req);
    var uid := LoginId(s.users, req);
    match FindCandidate(s'.users, uid)
    case None =>
    case Some(p) =>
      assert p < |s.users| && s.users[p].active;
      assert p in s'.reg.sockets;
  }

  /** The conditions on the partner column alone. */
  predicate PairingOk(users: Users)
  {
    Symmetric(users) && Irreflexive(users) && PairedAreActive(users)
  }

  /** Under symmetry nobody points at a partner-less user. */
  lemma NobodyPointsAtUnpaired(users: Users, a: UserId)
    requires Symmetric(users)
    requires a < |users| && users[a].partner.None?
    ensures forall c :: 0 <= c < |users| ==> users[c].partner != Some(a)
  {
    forall c | 0 <= c < |users|
      ensures users[c].partner != Some(a)
    {
      assert users[c].partner.Some? ==> users[users[c].partner.value].partner == Some(c);
    }
  }

  /** Clearing the partner of an unpaired `a`, and possibly making it
      inactive, keeps the partner column consistent. */
  lemma ReleaseUnpaired(users: Users, users': Users, a: UserId)
    requires PairingOk(users)
    requires a < |users| && users[a].partner.None?
    requires |users'| == |users| && users'[a].partner.None?
    requires forall j :: 0 <= j < |users| && j != a ==> users'[j] == users[j]
    ensures PairingOk(users')
  {
    NobodyPointsAtUnpaired(users, a);
  }

  /** Clearing both sides of the pair `a`-`b`, after `a`'s row has been
      rewritten with no partner (and possibly inactive), keeps the partner
      column consistent; `b` keeps its `active` flag. */
  lemma ReleasePair(users: Users, users': Users, a: UserId, b: UserId)
    requires PairingOk(users)
    requires a < |users| && users[a].partner == Some(b)
    requires |users'| == |users| && users'[a].partner.None?
    requires forall j :: 0 <= j < |users| && j != a ==> users'[j] == users[j]
    ensures PairingOk(SetPartner(users', b, None))
  {
    var r := SetPartner(users', b, None);
    assert b < |users| && users[b].partner == Some(a) && b != a;
    forall c | 0 <= c < |users| && c != a && c != b
      ensures users[c].partner != Some(a) && users[c].partner != Some(b)
    {
      assert users[c].partner.Some? ==> users[users[c].partner.value].partner == Some(c);
    }
    assert forall c :: 0 <= c < |r| ==> r[c].partner == (if c == a || c == b then None else users[c].partner);
  }

  /** Pairing two distinct active, partner-less users keeps the partner
      column consistent. */
  lemma PairKeeps(users: Users, a: UserId, b: UserId)
    requires PairingOk(users)
    requires a < |users| && b < |users| && a != b
    requires users[a].active && users[b].active
    requires users[a].partner.None? && users[b].partner.None?
    ensures PairingOk(SetPartner(SetPartner(users, a, Some(b)), b, Some(a)))
  {
    NobodyPointsAtUnpaired(users, a);
    NobodyPointsAtUnpaired(users, b);
    var r := SetPartner(SetPartner(users, a, Some(b)), b, Some(a));
    assert forall c :: 0 <= c < |r| && c != a && c != b ==> r[c] == users[c];
  }

  /** Admitting a login on a session that has not logged in keeps the
      invariant: the row that logs in was inactive, so it had neither a
      partner nor a session. */
  lemma AdmitPreservesInv(s: State, sid: Sid, req: LoginRequest)
    requires Inv(s)
    requires sid !in s.reg.connected
    requires !HasActiveWithMobile(s.users, req.mobile)
    ensures Inv(Admit(s, sid, req))
  {
    var (users', uid) := Activate(s.users, req);
    assert uid < |s.users| ==> !s.users[uid].active && s.users[uid].partner.None?;
    assert uid !in s.reg.sockets;
    assert forall j :: 0 <= j < |s.users| && j != uid ==> users'[j] == s.users[j];
    RegisterKeepsInverse(s.reg, sid, uid);
    assert PairingOk(users') by {
      if uid < |s.users| {
        ReleaseUnpaired(s.users, users', uid);
      } else {
        assert forall j :: 0 <= j < |s.users| ==> s.users[j].partner != Some(uid);
      }
    }
  }

  /** Pairing the requester with an eligible candidate keeps the invariant. */
  lemma PairPreservesInv(s: State, sid: Sid, uid: UserId, p: UserId)
    requires Inv(s)
    requires uid < |s.users| && s.users[uid].active && s.users[uid].partner.None?
    requires Eligible(s.users, uid, p)
    ensures Inv(Pair(s, sid, uid, p).next)
  {
    PairKeeps(s.users, uid, p);
    var r := Pair(s, sid, uid, p);
    assert r.next.users == SetPartner(SetPartner(s.users, uid, Some(p)), p, Some(uid));
  }

  /** Login preserves the invariant, provided the session has not already
      logged in (a second login on the same session is shown to break it in
      `SecondLoginOnSessionBreaksInverse`). */
  lemma LoginPreservesInv(s: State, sid: Sid, req: LoginRequest)
    requires Inv(s)
    requires sid !in s.reg.connected
    ensures Inv(Login(s, sid, req).next)
  {
    if !HasActiveWithMobile(s.users, req.mobile) {
      AdmitPreservesInv(s, sid, req);
      var s' := Admit(s, sid, req);
      var uid := LoginId(s.users, req);
      assert s'.users[uid].partner.None? by {
        if uid < |s.users| {
          assert !s.users[uid].active;
        }
      }
      match FindCandidate(s'.users, uid)
      case None =>
      case Some(p) =>
        PairPreservesInv(s', sid, uid, p);
    }
  }

  /** Skip preserves the invariant. */
  lemma SkipPreservesInv(s: State, sid: Sid)
    requires Inv(s)
    ensures Inv(Skip(s, sid).next)
  {
    if sid in s.reg.connected {
      var uid := s.reg.connected[sid];
      var users' := SetPartner(s.users, uid, None);
      match PartnerOf(s.users, uid)
      case None =>
        ReleaseUnpaired(s.users, users', uid);
      case Some(p) =>
        ReleasePair(s.users, users', uid, p);
        assert Skip(s, sid).next.users == SetPartner(users', p, None);
    }
  }

  /** Disconnect preserves the invariant. */
  lemma DisconnectPreservesInv(s: State, sid: Sid)
    requires Inv(s)
    ensures Inv(Disconnect(s, sid).next)
  {
    if sid in s.reg.connected {
      var uid := s.reg.connected[sid];
      UnregisterKeepsInverse(s.reg, sid);
      var users' := SetPartner(SetActive(s.users, uid, false), uid, None);
      var r := Disconnect(s, sid);
      match PartnerOf(s.users, uid)
      case None =>
        ReleaseUnpaired(s.users, users', uid);
        assert r.next.users == users';
      case Some(p) =>
        ReleasePair(s.users, users', uid, p);
        assert r.next.users == SetPartner(users', p, None);
    }
  }

  /** The guarded login preserves the invariant on every session. */
  lemma GuardedLoginPreservesInv(s: State, sid: Sid, req: LoginRequest)
    requires Inv(s)
    ensures Inv(GuardedLogin(s, sid, req).next)
  {
    if sid !in s.reg.connected {
      LoginPreservesInv(s, sid, req);
    }
  }
}

=== FILE: properties.dfy ===
/**
 What each handler promises in a state satisfying the invariant: how login
 pairs or queues the requester, how skip and disconnect unwind a pairing,
 and whom the relay reaches.
 */
module Properties {
  import opened Wrappers
  import opened Directory
  import opened Sessions
  import opened Rooms
  import opened Events
  import opened Server
  import opened Invariants

  /** The nickname the partner is told: the stored one for a returning
      user (re-read at app.py:100-101), the submitted one for a new user. */
  function StoredName(users: Users, req: LoginRequest): string
  {
    var uid := LoginId(users, req);
    if uid < |users| then users[uid].nickname else req.name
  }

  /** `r` pairs the requester of `req` on `sid` with the eligible user `p`:
      the two partner fields point at each other, each side is told the
      other's nickname in room `(requester, p)`, both sessions are in that
      room, and no other row and no other session entry changes. */
  predicate PairedWith(s: State, sid: Sid, req: LoginRequest, r: Step, p: UserId)
  {
    var uid := LoginId(s.users, req);
    && Eligible(s.users, uid, p)
    && p in s.reg.sockets
    && uid < |r.next.users| && p < |r.next.users|
    && r.next.users[uid] == AdmittedRow(s.users, req).(partner := Some(p))
    && r.next.users[p] == s.users[p].(partner := Some(uid))
    && HasActiveWithMobile(r.next.users, req.mobile)
    && r.out == [Event(sid, ChatStarted(RoomKey(uid, p), s.users[p].nickname)),
                 Event(s.reg.sockets[p], ChatStarted(RoomKey(uid, p), StoredName(s.users, req)))]
    && sid in Members(r.next.rooms, RoomKey(uid, p))
    && s.reg.sockets[p] in Members(r.next.rooms, RoomKey(uid, p))
    && |r.next.users| >= |s.users|
    && (forall j :: 0 <= j < |s.users| && j != uid && j != p ==> r.next.users[j] == s.users[j])
    && r.next.reg == Register(s.reg, sid, uid)
  }

  /** With an eligible candidate, login pairs the requester with one of them
      (see `PairedWith`). */
  lemma LoginPairs(s: State, sid: Sid, req: LoginRequest)
    requires Inv(s)
    requires !HasActiveWithMobile(s.users, req.mobile)
    requires exists p: UserId :: Eligible(s.users, LoginId(s.users, req), p)
    ensures exists p: UserId :: PairedWith(s, sid, req, Login(s, sid, req), p)
  {
    var uid := LoginId(s.users, req);
    var s' := Admit(s, sid, req);
    var q: UserId :| Eligible(s.users, uid, q);
    assert Eligible(s'.users, uid, q);
    var p := FindCandidate(s'.users, uid).value;
    assert Eligible(s.users, uid, p);
    assert p in s'.reg.sockets && s'.reg.sockets[p] == s.reg.sockets[p];
    var r := Login(s, sid, req);
    assert r == Pair(s', sid, uid, p);
    assert forall j :: 0 <= j < |s.users| && j != uid && j != p ==> r.next.users[j] == s.users[j] by {
      forall j | 0 <= j < |s.users| && j != uid && j != p
        ensures r.next.users[j] == s.users[j]
      {
        assert r.next.users[j] == s'.users[j];
      }
    }
    assert PairedWith(s, sid, req, r, p);
  }

  /** With no eligible candidate, the requester is left active, partner-less
      and registered in both directions, and is told only that it waits. */
  lemma LoginWaits(s: State, sid: Sid, req: LoginRequest)
    requires Inv(s)
    requires !HasActiveWithMobile(s.users, req.mobile)
    requires forall p: UserId :: !Eligible(s.users, LoginId(s.users, req), p)
    ensures var uid := LoginId(s.users, req);
      var r := Login(s, sid, req);
      && r.out == [Event(sid, Waiting(WaitingMessage))]
      && r.next.users[uid].active && r.next.users[uid].partner.None?
      && r.next.users[uid] == AdmittedRow(s.users, req)
      && HasActiveWithMobile(r.next.users, req.mobile)
      && Resolve(r.next.reg, sid) == Some(uid) && SessionOf(r.next.reg, uid) == Some(sid)
      && r.next.rooms == s.rooms
      && (forall j :: 0 <= j < |s.users| && j != uid ==> r.next.users[j] == s.users[j])
      && r.next.reg == Register(s.reg, sid, uid)
  {
    var uid := LoginId(s.users, req);
    var s' := Admit(s, sid, req);
    assert forall p :: 0 <= p < |s'.users| ==> !Eligible(s'.users, uid, p) by {
      forall p | 0 <= p < |s'.users|
        ensures !Eligible(s'.users, uid, p)
      {
        assert !Eligible(s.users, uid, p);
      }
    }
    assert uid < |s.users| ==> !s.users[uid].active;
  }

  /** Skip by a logged-in user clears its partner and the partner's partner,
      changes no `active` flag and no other row, and tells the partner it was
      skipped. */
  lemma SkipUnpairs(s: State, sid: Sid)
    requires Inv(s)
    requires sid in s.reg.connected
    ensures var uid := s.reg.connected[sid];
      var r := Skip(s, sid);
      && r.next.users[uid].partner.None?
      && r.next.users[uid].active
      && r.next.users[uid] == s.users[uid].(partner := None)
      && (forall a :: 0 <= a < |s.users| ==> r.next.users[a].active == s.users[a].active)
      && match s.users[uid].partner
         case None =>
           r.next.users == s.users && r.out == []
         case Some(p) =>
           && r.next.users[p].partner.None?
           && r.next.users[p] == s.users[p].(partner := None)
           && (forall a :: 0 <= a < |s.users| && a != uid && a != p ==> r.next.users[a] == s.users[a])
           && r.out == [Event(s.reg.sockets[p], PartnerDisconnected(SkippedMessage))]
  {
  }

  /** Disconnect of a logged-in user makes it inactive and partner-less,
      clears the partner's partner without touching the partner's `active`,
      tells the partner, and removes the session from both dictionaries. */
  lemma DisconnectUnpairs(s: State, sid: Sid)
    requires Inv(s)
    requires sid in s.reg.connected
    ensures var uid := s.reg.connected[sid];
      var r := Disconnect(s, sid);
      && !r.next.users[uid].active && r.next.users[uid].partner.None?
      && r.next.users[uid] == s.users[uid].(active := false, partner := None)
      && sid !in r.next.reg.connected && uid !in r.next.reg.sockets
      && match s.users[uid].partner
         case None =>
           && (forall a :: 0 <= a < |s.users| && a != uid ==> r.next.users[a] == s.users[a])
           && r.out == []
         case Some(p) =>
           && r.next.users[p] == s.users[p].(partner := None)
           && r.next.users[p].active
           && (forall a :: 0 <= a < |s.users| && a != uid && a != p ==> r.next.users[a] == s.users[a])
           && r.out == [Event(s.reg.sockets[p], PartnerDisconnected(DisconnectedMessage))]
  {
  }

  /** A second disconnect on the same session changes nothing and emits nothing. */
  lemma DisconnectIdempotent(s: State, sid: Sid)
    ensures var s1 := Disconnect(s, sid).next;
      Disconnect(s1, sid) == Step(s1, [])
  {
  }

  /** Once two sessions are in a pairing's room, a relay event from either
      side reaches the other and never comes back to its sender. */
  lemma PairRoomRelays(s: State, sid: Sid, uid: UserId, p: UserId, kind: Kind)
    requires uid < |s.users| && p < |s.users| && uid != p
    requires p in s.reg.sockets && s.reg.sockets[p] != sid
    ensures var r := Pair(s, sid, uid, p);
      var other := s.reg.sockets[p];
      && Event(other, kind) in Relay(r.next, sid, RoomKey(uid, p), kind)
      && Event(sid, kind) in Relay(r.next, other, RoomKey(uid, p), kind)
      && Event(sid, kind) !in Relay(r.next, sid, RoomKey(uid, p), kind)
  {
  }

  /** Right after a login pairs two users, relay events in their room pass
      between the two sessions and never back to the sender. */
  lemma PairedSessionsReachEachOther(s: State, sid: Sid, req: LoginRequest, kind: Kind)
    requires Inv(s)
    requires sid !in s.reg.connected
    requires !HasActiveWithMobile(s.users, req.mobile)
    requires exists p: UserId :: Eligible(s.users, LoginId(s.users, req), p)
    ensures var r := Login(s, sid, req);
      && |r.out| == 2
      && var room := r.out[0].kind.room;
         var other := r.out[1].target;
         && other != sid
         && Event(other, kind) in Relay(r.next, sid, room, kind)
         && Event(sid, kind) in Relay(r.next, other, room, kind)
         && Event(sid, kind) !in Relay(r.next, sid, room, kind)
  {
    var uid := LoginId(s.users, req);
    var s' := Admit(s, sid, req);
    var q: UserId :| Eligible(s.users, uid, q);
    assert Eligible(s'.users, uid, q);
    var p := FindCandidate(s'.users, uid).value;
    assert p < |s.users| && s.users[p].active;
    assert p in s.reg.sockets && s'.reg.sockets[p] == s.reg.sockets[p];
    assert s.reg.sockets[p] in s.reg.connected;
    PairRoomRelays(s', sid, uid, p, kind);
  }
}

=== FILE: rooms.dfy ===
/**
 Socket.IO rooms as app.py uses them: `join_room` adds a session to a room
 (app.py:97-98) and app.py never calls `leave_room`, so in this model
 membership only grows (the transport's own clean-up on disconnect is not
 modelled).
 */
module Rooms {
  import opened Directory
  import opened Sessions

  /** The room named `room_{first}_{second}` (app.py:95). The requester's id
      comes first, so the key is an ordered pair. */
  datatype RoomKey = RoomKey(first: UserId, second: UserId)

  type Rooms = map<RoomKey, set<Sid>>

  function Members(rooms: Rooms, key: RoomKey): set<Sid>
  {
    if key in rooms then rooms[key] else {}
  }

  /** `join_room(key, sid=sid)`. */
  function Join(rooms: Rooms, key: RoomKey, sid: Sid): (r: Rooms)
    ensures Members(r, key) == Members(rooms, key) + {sid}
    ensures forall k :: k != key ==> Members(r, k) == Members(rooms, k)
  {
    rooms[key := Members(rooms, key) + {sid}]
  }

  /** No room loses a member between `before` and `after`. */
  predicate Grows(before: Rooms, after: Rooms)
  {
    forall k :: k in before ==> before[k] <= Members(after, k)
  }

  /** Who an `emit(..., room=key, skip_sid=sender)` reaches
      (app.py:139, 146, 152). */
  function Recipients(rooms: Rooms, key: RoomKey, sender: Sid): (r: set<Sid>)
    ensures sender !in r
    ensures forall m :: m in r <==> m in Members(rooms, key) && m != sender
  {
    Members(rooms, key) - {sender}
  }
}

=== FILE: scenarios.dfy ===
/**
 Concrete runs: the three-user arrival scenario, skip-then-rejoin, a stale
 room that keeps relaying after a skip, and a second login on one session.
 */
module Scenarios {
  import opened Wrappers
  import opened Directory
  import opened Sessions
  import opened Rooms
  import opened Events
  import opened Server
  import opened Invariants

  const Alice := LoginRequest("111", "alice", "20", "f")
  const Bob := LoginRequest("222", "bob", "21", "m")
  const Carol := LoginRequest("333", "carol", "22", "f")

  const AliceRow := User("alice", "20", "f", "111", true, None)
  const BobRow := User("bob", "21", "m", "222", true, None)
  const CarolRow := User("carol", "22", "f", "333", true, None)

  /** After A's login: A waits on session "a". */
  const S1 := State([AliceRow], Registry(map["a" := 0], map[0 := "a"]), map[])

  /** After B's login: A and B paired in room (B, A). */
  const S2 := State([AliceRow.(partner := Some(1)), BobRow.(partner := Some(0))],
                    Registry(map["a" := 0, "b" := 1], map[0 := "a", 1 := "b"]),
                    map[RoomKey(1, 0) := {"b", "a"}])

  /** After C's login: C waits on session "c". */
  const S3 := State(S2.users + [CarolRow],
                    Registry(map["a" := 0, "b" := 1, "c" := 2], map[0 := "a", 1 := "b", 2 := "c"]),
                    S2.rooms)

  /** A arrives first and waits. */
  lemma AliceWaits()
    ensures Login(Init, "a", Alice) == Step(S1, [Event("a", Waiting(WaitingMessage))])
  {
    assert FindByMobile([], "111").None?;
    assert Admit(Init, "a", Alice) == S1;
  }

  /** B arrives and is paired with the waiting A; each learns the other's nickname. */
  lemma BobPairsWithAlice()
    ensures Login(S1, "b", Bob) == Step(S2, [Event("b", ChatStarted(RoomKey(1, 0), "alice")),
                                             Event("a", ChatStarted(RoomKey(1, 0), "bob"))])
  {
    assert !HasActiveWithMobile(S1.users, "222");
    assert FindByMobile(S1.users, "222").None?;
    var s' := Admit(S1, "b", Bob);
    assert s'.users == [AliceRow, BobRow];
    assert s'.reg == Registry(map["a" := 0, "b" := 1], map[0 := "a", 1 := "b"]);
    assert Eligible(s'.users, 1, 0);
    assert FindCandidate(s'.users, 1) == Some(0);
    var joined: Rooms := map[RoomKey(1, 0) := {"b"}];
    var empty: Rooms := map[];
    assert Members(empty, RoomKey(1, 0)) + {"b"} == {"b"};
    assert Join(empty, RoomKey(1, 0), "b") == joined;
    assert Members(joined, RoomKey(1, 0)) + {"a"} == {"b", "a"};
    assert Join(joined, RoomKey(1, 0), "a") == map[RoomKey(1, 0) := {"b", "a"}];
  }

  /** C arrives while A and B are paired and waits. */
  lemma CarolWaits()
    ensures Login(S2, "c", Carol) == Step(S3, [Event("c", Waiting(WaitingMessage))])
  {
    assert !HasActiveWithMobile(S2.users, "333");
    assert FindByMobile(S2.users, "333").None?;
    var s' := Admit(S2, "c", Carol);
    assert s'.users == S2.users + [CarolRow];
    assert s'.reg == S3.reg;
    assert !Eligible(s'.users, 2, 0) && !Eligible(s'.users, 2, 1) && !Eligible(s'.users, 2, 2);
    assert FindCandidate(s'.users, 2).None?;
  }

  /** A's message reaches B and nobody else: C, who is waiting, gets nothing. */
  lemma AliceMessageReachesOnlyBob()
    ensures HandleMessage(S3, "a", RoomKey(1, 0), Some("hi"), None, Some("12:00"))
         == {Event("b", ReceiveMessage(Some("hi"), None, Some("12:00")))}
  {
    var out := HandleMessage(S3, "a", RoomKey(1, 0), Some("hi"), None, Some("12:00"));
    assert Members(S3.rooms, RoomKey(1, 0)) == {"b", "a"};
    assert forall e :: e in out ==> e.target == "b";
  }

  /** The arrival scenario end to end: A waits, B pairs with A, C waits,
      and A's "hi" reaches B only. */
  lemma ThreeArrivals()
    ensures var r1 := Login(Init, "a", Alice);
      var r2 := Login(r1.next, "b", Bob);
      var r3 := Login(r2.next, "c", Carol);
      && r1.out == [Event("a", Waiting(WaitingMessage))]
      && r2.out == [Event("b", ChatStarted(RoomKey(1, 0), "alice")),
                    Event("a", ChatStarted(RoomKey(1, 0), "bob"))]
      && r3.out == [Event("c", Waiting(WaitingMessage))]
      && HandleMessage(r3.next, "a", RoomKey(1, 0), Some("hi"), None, Some("12:00"))
         == {Event("b", ReceiveMessage(Some("hi"), None, Some("12:00")))}
  {
    AliceWaits();
    BobPairsWithAlice();
    CarolWaits();
    AliceMessageReachesOnlyBob();
  }

  /** After A skips B: both unpaired, both still active, room (B, A) kept. */
  const S4 := State([AliceRow, BobRow], S2.reg, S2.rooms)

  /** A skips B: B is told it was skipped and neither keeps a partner. */
  lemma AliceSkipsBob()
    ensures Skip(S2, "a") == Step(S4, [Event("b", PartnerDisconnected(SkippedMessage))])
  {
    assert Skip(S2, "a").next.users == [AliceRow, BobRow];
  }

  /** Rooms are never left: after the skip, A's messages in the old room
      still reach B, who is no longer A's partner. */
  lemma StaleRoomStillRelays()
    ensures S4.users[0].partner.None? && S4.users[1].partner.None?
    ensures Event("b", Typing) in HandleTyping(S4, "a", RoomKey(1, 0))
  {
    assert "b" in Members(S4.rooms, RoomKey(1, 0));
  }

  /** Skip then rejoin: after A skips B, a newcomer C is paired with A, the
      lowest-id waiting user. */
  lemma CarolPairsAfterSkip()
    ensures var r := Login(S4, "c", Carol);
      && r.out == [Event("c", ChatStarted(RoomKey(2, 0), "alice")),
                   Event("a", ChatStarted(RoomKey(2, 0), "carol"))]
      && r.next.users[0].partner == Some(2) && r.next.users[2].partner == Some(0)
      && r.next.users[1].partner.None?
  {
    assert !HasActiveWithMobile(S4.users, "333");
    assert FindByMobile(S4.users, "333").None?;
    var s' := Admit(S4, "c", Carol);
    assert s'.users == [AliceRow, BobRow, CarolRow];
    assert Eligible(s'.users, 2, 0);
    assert FindCandidate(s'.users, 2) == Some(0);
  }

  /** A disconnects while paired with B: B is told, A is inactive and
      unpaired, B is unpaired and still active, and session "a" is gone. */
  lemma AliceDisconnects()
    ensures var r := Disconnect(S2, "a");
      && r.out == [Event("b", PartnerDisconnected(DisconnectedMessage))]
      && r.next.users == [AliceRow.(active := false), BobRow]
      && r.next.reg == Registry(map["b" := 1], map[1 := "b"])
  {
    var r := Disconnect(S2, "a");
    assert r.next.users == [AliceRow.(active := false), BobRow];
    assert r.next.reg.connected == map["b" := 1];
    assert r.next.reg.sockets == map[1 := "b"];
  }

  /** After a second login on session "a" with B's mobile: A and B are
      paired, "a" resolves to B, and A keeps its socket entry "a". */
  const S5 := State([AliceRow.(partner := Some(1)), BobRow.(partner := Some(0))],
                    Registry(map["a" := 1], map[0 := "a", 1 := "a"]),
                    map[RoomKey(1, 0) := {"a"}])

  /** After session "a" disconnects from S5. */
  const S6 := State([AliceRow, BobRow.(active := false)],
                    Registry(map[], map[0 := "a"]),
                    S5.rooms)

  /** The second login on session "a" overwrites `connected_users["a"]`. */
  lemma SecondLoginOverwrites()
    ensures Login(S1, "a", Bob).next == S5
  {
    assert !HasActiveWithMobile(S1.users, "222");
    assert FindByMobile(S1.users, "222").None?;
    var s' := Admit(S1, "a", Bob);
    assert s'.users == [AliceRow, BobRow];
    assert s'.reg == Registry(map["a" := 1], map[0 := "a", 1 := "a"]);
    assert Eligible(s'.users, 1, 0);
    assert FindCandidate(s'.users, 1) == Some(0);
    var empty: Rooms := map[];
    assert Members(empty, RoomKey(1, 0)) + {"a"} == {"a"};
    var joined: Rooms := map[RoomKey(1, 0) := {"a"}];
    assert Join(empty, RoomKey(1, 0), "a") == joined;
    assert Members(joined, RoomKey(1, 0)) + {"a"} == {"a"};
    assert Join(joined, RoomKey(1, 0), "a") == joined;
  }

  /** The disconnect removes B's entries only, leaving A active with a socket
      entry that no session resolves to. */
  lemma DisconnectOrphansFirstUser()
    ensures Disconnect(S5, "a").next == S6
  {
    var r := Disconnect(S5, "a");
    assert r.next.users == [AliceRow, BobRow.(active := false)];
    assert r.next.reg.connected == map[];
    assert r.next.reg.sockets == map[0 := "a"];
  }

  /** A second login on a session that is already logged in, with another
      mobile, overwrites `connected_users[sid]` but leaves the first user's
      `user_sockets` entry and `active` flag: the two dictionaries stop
      being inverse, and after the session disconnects the first user stays
      active with no live session, so every later login with its mobile is
      refused. The guarded login refuses the second login instead. */
  lemma SecondLoginOnSessionBreaksInverse()
    ensures Inv(S1)
    ensures var s2 := Login(S1, "a", Bob).next;
      && !Inverse(s2.reg)
      && var s3 := Disconnect(s2, "a").next;
         && s3.users[0].active
         && (forall t :: Resolve(s3.reg, t) != Some(0))
         && Login(s3, "z", Alice).out == [Event("z", LoginError(AlreadyConnectedMessage))]
    ensures GuardedLogin(S1, "a", Bob) == Step(S1, [Event("a", LoginError(AlreadyConnectedMessage))])
  {
    SecondLoginOverwrites();
    DisconnectOrphansFirstUser();
    assert S5.reg.sockets[0] == "a" && S5.reg.connected["a"] == 1;
    assert HasActiveWithMobile(S6.users, "111");
  }
}

=== FILE: server.dfy ===
/**
 The Socket.IO handlers of app.py as atomic state transitions. Each of
 `login`, `skip_partner` and `disconnect` takes the whole state (directory,
 session registry, rooms) to a new state plus the events it emits; the three
 relay handlers leave the state alone and only emit.
 */
module Server {
  import opened Wrappers
  import opened Directory
  import opened Sessions
  import opened Rooms
  import opened Events

  datatype State = State(users: Users, reg: Registry, rooms: Rooms)

  /** The result of one handler: the state after it and what it emitted, in order. */
  datatype Step = Step(next: State, out: seq<Event>)

  /** No users, no sessions, no rooms. */
  const Init: State := State([], Sessions.Empty, map[])

  /** The fields of the `login` payload (app.py:43-46). */
  datatype LoginRequest = LoginRequest(mobile: string, name: string, age: string, gender: string)

  /** The id a login that is not rejected proceeds with: the user that
      already registered this mobile, or a fresh id (app.py:61-71). */
  function LoginId(users: Users, req: LoginRequest): (uid: UserId)
    ensures uid <= |users|
    ensures uid < |users| ==> users[uid].mobile == req.mobile
    ensures forall j :: 0 <= j < uid ==> users[j].mobile != req.mobile
  {
    match FindByMobile(users, req.mobile)
    case Some(id) => id
    case None => |users|
  }

  /** The requester's row once admitted (lines 61-73): the stored row made
      active, keeping its nickname, age, gender and partner, or a new active
      row built from the request. Pairing may then set its partner. */
  function AdmittedRow(users: Users, req: LoginRequest): User
  {
    var uid := LoginId(users, req);
    if uid < |users| then users[uid].(active := true)
    else User(req.name, req.age, req.gender, req.mobile, true, None)
  }

  /** Lines 61-73: re-activate the existing row, or insert a new active one.
      An existing row keeps its stored nickname, age and gender. */
  function Activate(users: Users, req: LoginRequest): (r: (Users, UserId))
    ensures r.1 == LoginId(users, req)
    ensures r.1 < |r.0| && r.0[r.1].active && r.0[r.1].mobile == req.mobile
    ensures r.0[r.1] == AdmittedRow(users, req)
    ensures r.1 < |users| ==> r.0 == users[r.1 := users[r.1].(active := true)]
    ensures r.1 == |users| ==> r.0 == users + [User(req.name, req.age, req.gender, req.mobile, true, None)]
  {
    match FindByMobile(users, req.mobile)
    case Some(id) => (SetActive(users, id, true), id)
    case None => (Insert(users, req.name, req.age, req.gender, req.mobile), |users|)
  }

  /** Lines 61-77: the login is accepted; the user's row is activated or
      created and the session is registered for it. */
  function Admit(s: State, sid: Sid, req: LoginRequest): (r: State)
    ensures var uid := LoginId(s.users, req);
      && uid < |r.users| && r.users[uid].active && r.users[uid].mobile == req.mobile
      && Resolve(r.reg, sid) == Some(uid) && SessionOf(r.reg, uid) == Some(sid)
    ensures |r.users| >= |s.users|
    ensures forall j :: 0 <= j < |s.users| && j != LoginId(s.users, req) ==> r.users[j] == s.users[j]
    ensures forall t :: t != sid ==> Resolve(r.reg, t) == Resolve(s.reg, t)
    ensures r.rooms == s.rooms
  {
    var (users', uid) := Activate(s.users, req);
    s.(users := users', reg := Register(s.reg, sid, uid))
  }

  /** Lines 88-119: claim candidate `p` for requester `uid`, put both
      sessions in room `(uid, p)` and tell each side the other's nickname.
      If `p` has no session, `user_sockets[partner_id]` raises at line 98:
      the partner columns are already committed (line 93) and the requester
      has already joined the room, but nothing is emitted. */
  function Pair(s: State, sid: Sid, uid: UserId, p: UserId): (r: Step)
    requires uid < |s.users| && p < |s.users| && uid != p
    ensures |r.next.users| == |s.users| && r.next.reg == s.reg
    ensures r.next.users[uid] == s.users[uid].(partner := Some(p))
    ensures r.next.users[p] == s.users[p].(partner := Some(uid))
    ensures forall j :: 0 <= j < |s.users| && j != uid && j != p ==> r.next.users[j] == s.users[j]
    ensures Grows(s.rooms, r.next.rooms) && sid in Members(r.next.rooms, RoomKey(uid, p))
    ensures r.out == [] <==> p !in s.reg.sockets
    ensures p in s.reg.sockets ==>
      && s.reg.sockets[p] in Members(r.next.rooms, RoomKey(uid, p))
      && r.out == [Event(sid, ChatStarted(RoomKey(uid, p), s.users[p].nickname)),
                   Event(s.reg.sockets[p], ChatStarted(RoomKey(uid, p), s.users[uid].nickname))]
  {
    var users' := SetPartner(SetPartner(s.users, uid, Some(p)), p, Some(uid));
    var room := RoomKey(uid, p);
    var rooms' := Join(s.rooms, room, sid);
    match SessionOf(s.reg, p)
    case None => Step(s.(users := users', rooms := rooms'), [])
    case Some(psid) =>
      Step(s.(users := users', rooms := Join(rooms', room, psid)),
           [Event(sid, ChatStarted(room, s.users[p].nickname)),
            Event(psid, ChatStarted(room, users'[uid].nickname))])
  }

  /** What an accepted login changes: the registry gains exactly the new
      session, the table grows only by a new user's row, the requester's row
      is its admitted row with at most the partner changed, and at most one
      other row changes, that of an eligible candidate whose partner becomes
      the requester. */
  predicate LoginFrame(s: State, sid: Sid, req: LoginRequest, next: State)
  {
    var uid := LoginId(s.users, req);
    && next.reg == Register(s.reg, sid, uid)
    && |next.users| == (if uid < |s.users| then |s.users| else |s.users| + 1)
    && uid < |next.users|
    && next.users[uid] == AdmittedRow(s.users, req).(partner := next.users[uid].partner)
    && HasActiveWithMobile(next.users, req.mobile)
    && (forall j :: 0 <= j < |s.users| && j != uid && next.users[j] != s.users[j] ==>
          Eligible(s.users, uid, j) && next.users[j] == s.users[j].(partner := Some(uid)))
    && (forall j, k :: 0 <= j < k < |s.users| && j != uid && k != uid ==>
          next.users[j] == s.users[j] || next.users[k] == s.users[k])
  }

  /** The `login` handler (app.py:41-125). */
  function Login(s: State, sid: Sid, req: LoginRequest): (r: Step)
    ensures HasActiveWithMobile(s.users, req.mobile) ==>
      r.next == s && r.out == [Event(sid, LoginError(AlreadyConnectedMessage))]
    ensures !HasActiveWithMobile(s.users, req.mobile) ==>
      var uid := LoginId(s.users, req);
      && uid < |r.next.users| && r.next.users[uid].active
      && Resolve(r.next.reg, sid) == Some(uid) && SessionOf(r.next.reg, uid) == Some(sid)
    ensures !HasActiveWithMobile(s.users, req.mobile) ==> LoginFrame(s, sid, req, r.next)
    ensures Grows(s.rooms, r.next.rooms)
  {
    if HasActiveWithMobile(s.users, req.mobile) then
      Step(s, [Event(sid, LoginError(AlreadyConnectedMessage))])
    else
      var s' := Admit(s, sid, req);
      var uid := LoginId(s.users, req);
      match FindCandidate(s'.users, uid)
      case None => Step(s', [Event(sid, Waiting(WaitingMessage))])
      case Some(p) => Pair(s', sid, uid, p)
  }

  /** Login with the evidently intended guard against a session that is
      already logged in: such a login is refused like a duplicate one,
      instead of overwriting `connected_users[sid]` and orphaning the
      session's first user. Any other login is `Login` unchanged. */
  function GuardedLogin(s: State, sid: Sid, req: LoginRequest): (r: Step)
    ensures r.out == [Event(sid, LoginError(AlreadyConnectedMessage))] <==>
      sid in s.reg.connected || HasActiveWithMobile(s.users, req.mobile)
    ensures sid in s.reg.connected || HasActiveWithMobile(s.users, req.mobile) ==> r.next == s
    ensures sid !in s.reg.connected && !HasActiveWithMobile(s.users, req.mobile) ==>
      var uid := LoginId(s.users, req);
      && uid < |r.next.users| && r.next.users[uid].active
      && Resolve(r.next.reg, sid) == Some(uid) && SessionOf(r.next.reg, uid) == Some(sid)
      && LoginFrame(s, sid, req, r.next)
    ensures Grows(s.rooms, r.next.rooms)
  {
    if sid in s.reg.connected then Step(s, [Event(sid, LoginError(AlreadyConnectedMessage))])
    else Login(s, sid, req)
  }

  /** Clears the partner of `uid` and of that partner, and tells the partner,
      if it has a session, with `message`: the part `skip_partner` and
      `disconnect` share (app.py:167-175, 193-202). `users` is the table
      after the handler's own update of `uid`'s row. */
  function Release(s: State, users: Users, uid: UserId, message: string): (r: Step)
    requires |users| == |s.users|
    ensures r.next.reg == s.reg && r.next.rooms == s.rooms && |r.next.users| == |s.users|
    ensures PartnerOf(s.users, uid).None? ==> r.next.users == users && r.out == []
    ensures PartnerOf(s.users, uid).Some? ==>
      r.next.users == SetPartner(users, PartnerOf(s.users, uid).value, None)
    ensures |r.out| <= 1
    ensures forall e :: e in r.out ==>
      && PartnerOf(s.users, uid).Some?
      && SessionOf(s.reg, PartnerOf(s.users, uid).value) == Some(e.target)
      && e.kind == PartnerDisconnected(message)
    ensures PartnerOf(s.users, uid).Some? && PartnerOf(s.users, uid).value in s.reg.sockets ==> |r.out| == 1
  {
    match PartnerOf(s.users, uid)
    case None => Step(s.(users := users), [])
    case Some(p) =>
      var out := match SessionOf(s.reg, p)
        case Some(psid) => [Event(psid, PartnerDisconnected(message))]
        case None => [];
      Step(s.(users := SetPartner(users, p, None)), out)
  }

  /** The `skip_partner` handler (app.py:156-179). */
  function Skip(s: State, sid: Sid): (r: Step)
    ensures Resolve(s.reg, sid).None? ==> r == Step(s, [])
    ensures r.next.reg == s.reg && r.next.rooms == s.rooms && |r.next.users| == |s.users|
    ensures forall a :: 0 <= a < |s.users| ==> r.next.users[a].active == s.users[a].active
    ensures sid in s.reg.connected && s.reg.connected[sid] < |s.users| ==>
      r.next.users[s.reg.connected[sid]].partner.None?
  {
    match Resolve(s.reg, sid)
    case None => Step(s, [])
    case Some(uid) => Release(s, SetPartner(s.users, uid, None), uid, SkippedMessage)
  }

  /** The `disconnect` handler (app.py:182-209). */
  function Disconnect(s: State, sid: Sid): (r: Step)
    ensures Resolve(s.reg, sid).None? ==> r == Step(s, [])
    ensures Resolve(r.next.reg, sid).None?
    ensures r.next.rooms == s.rooms && |r.next.users| == |s.users|
    ensures sid in s.reg.connected ==>
      var uid := s.reg.connected[sid];
      && r.next.reg == Unregister(s.reg, sid, uid)
      && (uid < |s.users| ==> !r.next.users[uid].active && r.next.users[uid].partner.None?)
  {
    match Resolve(s.reg, sid)
    case None => Step(s, [])
    case Some(uid) =>
      var users' := SetPartner(SetActive(s.users, uid, false), uid, None);
      var r := Release(s, users', uid, DisconnectedMessage);
      Step(r.next.(reg := Unregister(s.reg, sid, uid)), r.out)
  }

  /** One event of `kind` to every session in the room except the sender's. */
  function Relay(s: State, sender: Sid, room: RoomKey, kind: Kind): (out: set<Event>)
    ensures forall e :: e in out <==>
      e.kind == kind && e.target in Members(s.rooms, room) && e.target != sender
  {
    set m | m in Recipients(s.rooms, room, sender) :: Event(m, kind)
  }

  /** The `sendMessage` handler (app.py:128-139); the constant empty
      `reactions` field is not modelled. */
  function HandleMessage(s: State, sender: Sid, room: RoomKey, text: Field, replyText: Field, timestamp: Field): (out: set<Event>)
    ensures forall e :: e in out <==>
      && e.kind == ReceiveMessage(text, replyText, timestamp)
      && e.target in Members(s.rooms, room) && e.target != sender
  {
    Relay(s, sender, room, ReceiveMessage(text, replyText, timestamp))
  }

  /** The `message_seen` handler (app.py:142-146). */
  function HandleSeen(s: State, sender: Sid, room: RoomKey, text: Field): (out: set<Event>)
    ensures forall e :: e in out <==>
      && e.kind == MessageStatusUpdate(text, SeenStatus)
      && e.target in Members(s.rooms, room) && e.target != sender
  {
    Relay(s, sender, room, MessageStatusUpdate(text, SeenStatus))
  }

  /** The `typing` handler (app.py:149-152). */
  function HandleTyping(s: State, sender: Sid, room: RoomKey): (out: set<Event>)
    ensures forall e :: e in out <==>
      e.kind == Typing && e.target in Members(s.rooms, room) && e.target != sender
  {
    Relay(s, sender, room, Typing)
  }
}

=== FILE: sessions.dfy ===
/**
 The two in-memory dictionaries of app.py:30-31: `connected_users` maps a
 session id to the user logged in on it, `user_sockets` maps a user id back
 to that user's session.
 */
module Sessions {
  import opened Wrappers
  import opened Directory

  /** A Socket.IO session id (`request.sid`). */
  type Sid = string

  datatype Registry = Registry(connected: map<Sid, UserId>, sockets: map<UserId, Sid>)

  const Empty: Registry := Registry(map[], map[])

  /** `connected_users.get(sid)` (app.py:160, 185). */
  function Resolve(reg: Registry, sid: Sid): Option<UserId>
  {
    if sid in reg.connected then Some(reg.connected[sid]) else None
  }

  /** `user_sockets[uid]` where the handler first tests `uid in user_sockets`. */
  function SessionOf(reg: Registry, uid: UserId): Option<Sid>
  {
    if uid in reg.sockets then Some(reg.sockets[uid]) else None
  }

  /** The two dictionary stores of app.py:76-77. */
  function Register(reg: Registry, sid: Sid, uid: UserId): (r: Registry)
    ensures Resolve(r, sid) == Some(uid) && SessionOf(r, uid) == Some(sid)
    ensures forall t :: t != sid ==> Resolve(r, t) == Resolve(reg, t)
    ensures forall u :: u != uid ==> SessionOf(r, u) == SessionOf(reg, u)
  {
    Registry(reg.connected[sid := uid], reg.sockets[uid := sid])
  }

  /** The two `pop(..., None)` calls of app.py:208-209: each removes its key
      if present, whatever the other dictionary says. */
  function Unregister(reg: Registry, sid: Sid, uid: UserId): (r: Registry)
    ensures Resolve(r, sid).None? && SessionOf(r, uid).None?
    ensures forall t :: t != sid ==> Resolve(r, t) == Resolve(reg, t)
    ensures forall u :: u != uid ==> SessionOf(r, u) == SessionOf(reg, u)
  {
    Registry(reg.connected - {sid}, reg.sockets - {uid})
  }

  /** `connected_users` and `user_sockets` are each other's inverse. */
  predicate Inverse(reg: Registry)
  {
    && (forall sid :: sid in reg.connected ==>
          reg.connected[sid] in reg.sockets && reg.sockets[reg.connected[sid]] == sid)
    && (forall uid :: uid in reg.sockets ==>
          reg.sockets[uid] in reg.connected && reg.connected[reg.sockets[uid]] == uid)
  }

  /** Registering a session and a user that are both new keeps the two
      dictionaries inverse. */
  lemma RegisterKeepsInverse(reg: Registry, sid: Sid, uid: UserId)
    requires Inverse(reg)
    requires sid !in reg.connected && uid !in reg.sockets
    ensures Inverse(Register(reg, sid, uid))
  {
  }

  /** Unregistering a session together with the user it resolves to keeps
      the two dictionaries inverse. */
  lemma UnregisterKeepsInverse(reg: Registry, sid: Sid)
    requires Inverse(reg)
    requires sid in reg.connected
    ensures Inverse(Unregister(reg, sid, reg.connected[sid]))
  {
  }
}

=== FILE: trace.dfy ===
/**
 Runs of the server: a sequence of inbound events applied one handler at a
 time, each handler atomic. `Run` uses the guarded login; `RunAsWritten`
 uses login exactly as app.py has it, and the two agree on every run in
 which each session logs in at most once.
 */
module Trace {
  import opened Wrappers
  import opened Directory
  import opened Sessions
  import opened Rooms
  import opened Events
  import opened Server
  import opened Invariants

  /** One inbound Socket.IO event with the session it arrived on. */
  datatype Action =
    | LoginAction(sid: Sid, req: LoginRequest)
    | SkipAction(sid: Sid)
    | DisconnectAction(sid: Sid)
    | MessageAction(sid: Sid, room: RoomKey, text: Field, replyText: Field, timestamp: Field)
    | SeenAction(sid: Sid, room: RoomKey, text: Field)
    | TypingAction(sid: Sid, room: RoomKey)

  /** The state after handling `a`, with the guarded login; relay handlers only emit. */
  function Apply(s: State, a: Action): State
  {
    match a
    case LoginAction(sid, req) => GuardedLogin(s, sid, req).next
    case SkipAction(sid) => Skip(s, sid).next
    case DisconnectAction(sid) => Disconnect(s, sid).next
    case MessageAction(_, _, _, _, _) => s
    case SeenAction(_, _, _) => s
    case TypingAction(_, _) => s
  }

  /** The state after handling `a` with login as app.py has it. */
  function ApplyAsWritten(s: State, a: Action): State
  {
    match a
    case LoginAction(sid, req) => Login(s, sid, req).next
    case _ => Apply(s, a)
  }

  function Run(s: State, trace: seq<Action>): State
    decreases |trace|
  {
    if trace == [] then s else Run(Apply(s, trace[0]), trace[1..])
  }

  function RunAsWritten(s: State, trace: seq<Action>): State
    decreases |trace|
  {
    if trace == [] then s else RunAsWritten(ApplyAsWritten(s, trace[0]), trace[1..])
  }

  /** Every login in the run arrives on a session that is not logged in at
      that point: one login per connection. */
  predicate OneLoginPerSession(s: State, trace: seq<Action>)
    decreases |trace|
  {
    trace == [] ||
    ((trace[0].LoginAction? ==> trace[0].sid !in s.reg.connected)
     && OneLoginPerSession(ApplyAsWritten(s, trace[0]), trace[1..]))
  }

  /** Every handler keeps the invariant. */
  lemma ApplyPreservesInv(s: State, a: Action)
    requires Inv(s)
    ensures Inv(Apply(s, a))
  {
    match a
    case LoginAction(sid, req) => GuardedLoginPreservesInv(s, sid, req);
    case SkipAction(sid) => SkipPreservesInv(s, sid);
    case DisconnectAction(sid) => DisconnectPreservesInv(s, sid);
    case MessageAction(_, _, _, _, _) =>
    case SeenAction(_, _, _) =>
    case TypingAction(_, _) =>
  }

  /** Every run keeps the invariant. */
  lemma {:induction false} RunPreservesInv(s: State, trace: seq<Action>)
    requires Inv(s)
    ensures Inv(Run(s, trace))
    decreases |trace|
  {
    if trace != [] {
      ApplyPreservesInv(s, trace[0]);
      RunPreservesInv(Apply(s, trace[0]), trace[1..]);
    }
  }

  /** Every state reachable from a clean start satisfies the invariant. */
  lemma ReachableInv(s: State, trace: seq<Action>)
    requires CleanStart(s)
    ensures Inv(Run(s, trace))
  {
    CleanStartInv(s);
    RunPreservesInv(s, trace);
  }

  /** With one login per session the guard never fires, so the code as
      written and the guarded login produce the same run. */
  lemma {:induction false} RunsAgree(s: State, trace: seq<Action>)
    requires OneLoginPerSession(s, trace)
    ensures RunAsWritten(s, trace) == Run(s, trace)
    decreases |trace|
  {
    if trace != [] {
      assert ApplyAsWritten(s, trace[0]) == Apply(s, trace[0]);
      RunsAgree(Apply(s, trace[0]), trace[1..]);
    }
  }

  /** The code as written keeps the invariant on every run from a clean
      start in which each session logs in at most once. */
  lemma ReachableInvAsWritten(s: State, trace: seq<Action>)
    requires CleanStart(s)
    requires OneLoginPerSession(s, trace)
    ensures Inv(RunAsWritten(s, trace))
  {
    RunsAgree(s, trace);
    ReachableInv(s, trace);
  }

  /** Room membership only grows along a run, whatever the inputs. */
  lemma {:induction false} RunRoomsGrow(s: State, trace: seq<Action>)
    ensures Grows(s.rooms, Run(s, trace).rooms)
    decreases |trace|
  {
    if trace != [] {
      var s1 := Apply(s, trace[0]);
      assert Grows(s.rooms, s1.rooms);
      RunRoomsGrow(s1, trace[1..]);
      var t := Run(s1, trace[1..]);
      forall k | k in s.rooms
        ensures s.rooms[k] <= Members(t.rooms, k)
      {
        assert s.rooms[k] <= Members(s1.rooms, k);
      }
    }
  }
}

=== FILE: wrappers.dfy ===
/** Optional values: the model's stand-in for Python's `None` and for `dict.get`. */
module Wrappers {

  datatype Option<+T> = None | Some(value: T)
}
